=== FILE: README.md ===
# RateMyBrain — a Dafny model of the quiz logic

RateMyBrain is a single-page "brain test". The player goes through six
mini-games in a fixed order: reaction time, pattern match, number recall,
color chaos (a Stroop test), monkey mind (a chimp test) and ghost buster
(an aim test). Each game reports one score. The results screen then shows the
rounded average of the six scores, a "brain type" taken from a five-row
threshold table, and one of three memes.

This project models the logic under the markup in `src/App.jsx`. Each part is
a pure function or a small state machine. Clocks, timers and `Math.random`
become inputs:

- events carry the time they happen at;
- the expiry of a timer that drives a game (the reaction signal, the pattern
  countdown, the number-recall pauses, the aim clock) is an explicit event of
  that game;
- the report timers through which three games hand their score to the session
  are modelled in `Session.World`: a game's transition yields the score, and
  the timer's callback is a separate signal;
- random draws are passed in as values or sequences.

Modules, one per component:

| file | module | models |
|---|---|---|
| `common.dfy` | `Common` | `Option`, `Math.min/max`, clamping, and `Math.round(n/d)` done exactly over the rationals |
| `session.dfy` | `Session` | the `App` component: step, score record, start / game complete / restart |
| `results.dfy` | `Results` | `ResultsScreen`: average, brain-type lookup, meme band |
| `reaction.dfy` | `Reaction` | `ReactionGame` status machine and score formula |
| `pattern.dfy` | `Pattern` | `PatternGame` grid generation, countdown, cell toggle, scoring |
| `number_recall.dfy` | `NumberRecall` | `NumberGame` number generation and level progression |
| `stroop.dfy` | `Stroop` | `StroopGame` round counting and score |
| `chimp.dfy` | `Chimp` | `ChimpGame` tile placement loop and ordered-click protocol |
| `aim.dfy` | `Aim` | `AimGame` countdown, ghost removal and score |

Rounding. For a positive divisor `d`, `Math.round(n / d)` is the integer `r`
with `r - 1/2 <= n/d < r + 1/2`. `Common.RoundDiv` computes it with
integers. This gives three facts used below:

- the average is `(total + 3) / 6` under floor division, for every integer total;
- the reaction formula is `(602 - diff) / 4` before clamping;
- the Stroop score `Math.round(k / 5 * 100)` is exactly `20 * k`. In floating
  point, `0.6 * 100` is `60.00000000000001`, but `Math.round` removes that error.

Notes on the code's behaviour:

- `handleGameComplete` does not reject an out-of-order or repeated completion.
  The new step depends only on the game that reports, not on the current step.
- The reported score is stored without clamping.
- A restart control is not shown on the intro screen. `Session.OnScreen`
  captures which events the screen on show delivers directly.
- The reaction and pattern games report 2 s after their score is known, and
  Monkey Mind 1.5 s after a wrong click, through timers that are never
  cleared. The header's restart stays on screen during those pauses, so a
  report can arrive after a restart and is then taken as if its game were
  shown: it can move the intro to a later game, or end a fresh attempt at
  the same game with the old score (see "## Findings").
- Level 4 of number recall shows a 6-digit number (`level + 2` digits), not a
  5-digit one.

## Model

| member | source | states |
|---|---|---|
| `Session.Complete` | src/App.jsx:859-869 | completing `game` stores the score under `game` only, leaves the other five entries unchanged, and moves to the step after `game`, whatever the current step is |
| `Session.Successor` | src/App.jsx:862-868 | the step after a game is the next game in the play order reaction, pattern, memory, stroop, chimp, aim, or the results after aim |
| `Session.Start` | src/App.jsx:909 | the intro's start shows the first game and leaves the scores alone |
| `Session.Restart` | src/App.jsx:871-874 | restart shows the intro with all six scores 0 |
| `Session.RestartFromAnywhere` | src/App.jsx:871-874 | restart yields the initial state from every state |
| `Session.FullPlay` | src/App.jsx:852-874 | start and six completions in play order lead from the intro to the results with each reported score stored, and the screens offer each event when it comes |
| `Session.RunKeepsScoresInRange` | src/App.jsx:855-860 | if every game reports a score in [0, 100], every score-record entry stays in [0, 100] along any run |
| `Session.StepFollowsOrder` | src/App.jsx:859-868 | for any event in any state, a game step is reached only by start (first game) or by completing the game before it, and the results only by completing aim |
| `Session.FiredReportAdvances` | src/App.jsx:859-868 | a pending report timer can call back whatever step is shown, the intro included, and then stores its score under its own game and moves to that game's successor |
| `Session.StaleReportSkipsAhead` | src/App.jsx:859-874 | as written, reaction reports, the pattern game sets its report timer, the player restarts, and the pattern report moves the intro straight to the memory game with the old pattern score, off the intended flow; with cancellation the same run stays at the initial world |
| `Session.CancellingFollowsOrder` | src/App.jsx:859-874 | when leaving a step cancels the report timers set on it, every possible signal keeps the pending timers to the game shown, moves the step by one move of the intended flow, and changes only the shown game's score unless restart clears all |
| `Session.CancellingRunFollowsOrder` | src/App.jsx:859-874 | with that cancellation, every run of possible signals from the initial world keeps to the intended flow at each step |
| `Session.CancellingRestartForgets` | src/App.jsx:871-874 | with that cancellation, a restart yields the initial world with no timer pending, so whatever follows runs exactly as from a fresh load and no report set before the restart reaches the orchestrator |
| `Session.StaleReportEndsRetry` | src/App.jsx:859-874 | as written, a reaction report set before a restart ends the next reaction attempt with the old score; with cancellation no timer is pending after the second start |
| `Results.Total` | src/App.jsx:743 | the total of six in-range scores is in [0, 600] |
| `Results.Average` | src/App.jsx:744 | the average is the integer nearest to total/6, halves rounded up |
| `Results.AverageIsShiftedFloor` | src/App.jsx:744 | the average equals `(total + 3) / 6` under floor division, for every total |
| `Results.AverageInRange` | src/App.jsx:743-744 | when every score is in [0, 100], so is the average |
| `Results.FindFirst` | src/App.jsx:746 | `find` returns the first row whose threshold the average reaches, every earlier row's threshold is above it, and None only when no row matches |
| `Results.FirstMatchIsLargest` | src/App.jsx:90-96 | in a descending table the first matching row has the largest threshold not above the average |
| `Results.Classify` | src/App.jsx:746 | the brain type is a table row; for an average of at least 0 it is the row with the largest threshold at most the average; for a negative average it is the fallback last row |
| `Results.FindAlwaysMatches` | src/App.jsx:95 | since the last threshold is 0, the lookup never needs the fallback for an average of at least 0 |
| `Results.ClassifyBoundaries` | src/App.jsx:90-96 | 100 and 85 give "Lightning CPU", 84 and 70 "Fast Thinker", 69 and 55 "Balanced Brain", 54 and 35 "Golden Retriever", 34 and 0 "Slow Mode" |
| `Results.MemeFor` | src/App.jsx:749-755 | the meme is high exactly above 75, low exactly below 40, mid exactly from 40 to 75 |
| `Results.MemeAgainstBrainType` | src/App.jsx:746-755 | the meme bands and brain-type bands differ: top band always high, bottom band always low, "Balanced Brain" always mid, "Fast Thinker" high only above 75, "Golden Retriever" low only below 40 |
| `Results.Diagnose` | src/App.jsx:742-755 | the screen shows the rounded average (in [0, 100] for in-range scores), its brain type and its meme |
| `Results.ExampleDiagnosis` | src/App.jsx:743-755 | scores 80, 70, 75, 80, 100, 70 give average 79, "Fast Thinker", the high meme |
| `Results.FullSessionDiagnosis` | src/App.jsx:859-874 | a full session with in-range scores ends on the results with an average in [0, 100] whose brain type's threshold it reaches |
| `Common.RoundDiv` | src/App.jsx:744 | `Math.round(n / d)` for d > 0 is the integer within half of n/d, halves rounded up |
| `Common.Clamp` | src/App.jsx:321 | `Math.max(lo, Math.min(hi, x))` lies in [lo, hi] and is x when x is already there |
| `Reaction.Score` | src/App.jsx:321 | the reaction score is in [0, 100]: 100 up to 202 ms, 0 from 599 ms, and in between the nearest integer to 100 - (diff - 200)/4 |
| `Reaction.ScoreIsShiftedFloor` | src/App.jsx:321 | the reaction score equals the clamp of `(602 - diff) / 4` under floor division |
| `Reaction.ScoreMonotone` | src/App.jsx:321 | a slower reaction never scores more |
| `Reaction.ScoreExamples` | src/App.jsx:321 | 200 ms scores 100, 300 ms scores 75, 600 ms scores 0 |
| `Reaction.Step` | src/App.jsx:300-324 | a score is reported exactly on a click while ready, and it is the clamped score of the delay since the signal; the signal's timer turns waiting into ready at its time and is ignored otherwise; a click while waiting goes to early without a score; start works from idle or early; every other click or start changes nothing |
| `Reaction.Run` | src/App.jsx:310-322 | any score a run reports is in [0, 100] and leaves the test finished |
| `Reaction.EarlyClicksNeverReport` | src/App.jsx:311-314 | before the signal appears, no sequence of starts and clicks reports a score |
| `Reaction.HappyPath` | src/App.jsx:300-322 | start, signal at t0, click at t1 reports the score of t1 - t0 |
| `Pattern.Generate` | src/App.jsx:370-380 | the rejection loop marks exactly the distinct drawn cells and stops once 4 are marked; it marks at most 4, and fewer only when the draws run out |
| `Pattern.NewGame` | src/App.jsx:365-380 | a new game is on the generated grid, with no player cells selected, in the memorize phase, with 3 seconds on the countdown |
| `Pattern.Tick` | src/App.jsx:382-391 | the countdown goes down by one each tick; the tick at 1 switches to recall; later ticks change nothing |
| `Pattern.ThreeTicksToRecall` | src/App.jsx:368-391 | the third tick after mount starts the recall phase and the second does not |
| `Pattern.Toggle` | src/App.jsx:396-401 | a click flips only the clicked cell, and only during recall |
| `Pattern.ToggleTwice` | src/App.jsx:396-401 | clicking a cell twice restores the game |
| `Pattern.Hits` | src/App.jsx:406-407 | correct cells are at most the cells in the pattern and at most the cells selected |
| `Pattern.Mistakes` | src/App.jsx:406-408 | correct cells plus mistakes are all the cells the player selected |
| `Pattern.PatternScore` | src/App.jsx:410 | the score is the larger of 0 and 25 per correct cell minus 15 per mistake, so at most 100 for a 4-cell pattern |
| `Pattern.PerfectIffExact` | src/App.jsx:404-410 | with a 4-cell pattern the score is 100 exactly when the selection equals the pattern |
| `Pattern.Submit` | src/App.jsx:403-413 | submit works only in recall, shows the result and reports the pattern score, which is in [0, 100] for a 4-cell pattern |
| `NumberRecall.DecimalLength` | src/App.jsx:457-459 | a number in [10^(d-1), 10^d) is written with d digits |
| `NumberRecall.NewNumber` | src/App.jsx:457-458 | the number generated at a level has exactly level + 2 digits |
| `NumberRecall.Begin` | src/App.jsx:450-459 | the game starts at level 1 showing a 3-digit number |
| `NumberRecall.Step` | src/App.jsx:455-506 | the show timer turns show into input and typing sets the input, each only in its phase; the level stays in 1..4; a wrong answer at level L reports 25 * (L - 1); a right answer at level 4 reports 100; a right answer below 4 goes to feedback; the feedback timer then shows the next level's number built from the draw, one digit longer, with the input cleared; a report leaves the game as it was; submit outside the input phase and the feedback timer outside the feedback phase change nothing |
| `NumberRecall.HundredOnlyAtLastLevel` | src/App.jsx:469-486 | a report of 100 comes only from a right answer at level 4 |
| `NumberRecall.RightAnswerAdvances` | src/App.jsx:471-480 | a right answer below level 4 reports nothing and leads to the next level after the feedback pause |
| `Stroop.FinalScore` | src/App.jsx:540 | `Math.round(k / 5 * 100)` is the integer nearest to 20k, in [0, 100] for k in 0..5 |
| `Stroop.FinalScoreExact` | src/App.jsx:540 | the final score is exactly 20 points per right answer |
| `Stroop.NextRound` | src/App.jsx:538-555 | after the fifth puzzle the final score is reported; before it a new puzzle is shown and the round count grows by one |
| `Stroop.Mount` | src/App.jsx:557-560 | mounting shows the first puzzle as round 1 with no right answers |
| `Stroop.Answer` | src/App.jsx:562-565 | an answer counts when it names the ink; the fifth answer reports a score in [0, 100] |
| `Stroop.PlayScoresRightAnswers` | src/App.jsx:538-565 | answering the remaining puzzles reports at the fifth answer, 20 points per right answer over the game |
| `Stroop.WholeGame` | src/App.jsx:538-565 | five answers from mount report 20 times the number of right answers |
| `Chimp.Place` | src/App.jsx:600-611 | the placement loop yields the reference placement `Keep`: each draw becomes the next tile unless it collides with a tile already placed, up to 5; every consumed draw became a tile or collides with one; the tiles are numbered 1, 2, ... in order, visible, in the field, with no two colliding; fewer than 5 only when the draws run out, and the fifth tile is the last draw consumed |
| `Chimp.Click` | src/App.jsx:613-637 | clicks are ignored when lost and for any tile but 1 while memorizing; 1 starts play expecting 2, hiding tile 1 and masking the others; the expected tile is hidden and the next expected, and the fifth reports 100; a wrong tile in play loses, reveals every tile, keeps the expected id and reports 0 |
| `Chimp.Run` | src/App.jsx:614 | a lost game reports nothing more |
| `Chimp.PlayRun` | src/App.jsx:621-635 | while playing with e expected, the run reports 100 exactly when the next clicks are e..5; otherwise it reports 0 or nothing |
| `Chimp.MemorizeRun` | src/App.jsx:614-620 | clicks before the first 1 are ignored |
| `Chimp.WinIffInOrder` | src/App.jsx:613-637 | from the start, 100 is reported exactly when clicks 2, 3, 4, 5 follow the first 1 in a row; every run reports 100, 0 or nothing |
| `Chimp.PerfectGame` | src/App.jsx:613-637 | clicking 1..5 in order scores 100 |
| `Aim.FinalScore` | src/App.jsx:691 | the score is min(100, 10 * hits): in [0, 100], 100 exactly from 10 hits |
| `Aim.FinalScoreMonotone` | src/App.jsx:691 | more hits never score less |
| `Aim.RemoveGhost` | src/App.jsx:702 | removal drops exactly the ghosts with the id, and every other ghost is still present; an absent id changes nothing |
| `Aim.StartHunt` | src/App.jsx:696-699 | starting activates a fresh game and spawns one ghost; otherwise nothing changes |
| `Aim.Spawn` | src/App.jsx:676-686 | while the game runs a spawn appends one ghost; otherwise nothing changes |
| `Aim.Whack` | src/App.jsx:701-704 | a whack removes the ghost and adds one hit, leaving the timer alone |
| `Aim.Tick` | src/App.jsx:683-694 | a tick of a running game takes a second off; the tick that reaches 0 ends the game and reports the final score |
| `Aim.CountdownReports` | src/App.jsx:683-694 | a running game with t seconds left reports after exactly t ticks and not before |
| `Aim.TenSecondsLater` | src/App.jsx:683-704 | a started game in which n ghosts are whacked reports min(100, 10 * n) ten ticks later |

## Left out

- Rendering, JSX markup, CSS, fonts, icons and the progress dots: presentation only.
- Timer delays: the length of the 2 s and 1.5 s report pauses, the show time
  of number recall and the 0.8 s spawn interval are not modelled; only the
  order in which timers fire is. `Session.World` lets any pending report
  timer fire at any point, and it lets the game shown set a report timer with
  any score more than once, where the component sets one per mount with the
  score its own transition computed.
- `Date.now`: the reaction test's clock and the ghost ids are event parameters.
- `Math.random`: the delays, grid cells, digits, puzzles and positions are
  passed in. `Pattern.Generate` and `Chimp.Place` prove what their rejection
  loops maintain on a finite sequence of draws. They do not prove that the
  loops terminate; termination needs enough usable draws.
- The share modal (clipboard, image export, social links), the meme URLs,
  citations and image fallbacks: foreign calls or static assets.
- The Stroop screen's text "Round {round} / 6": display only. It does not
  match the five scored answers.
- Monkey Mind's `won` status is declared in a comment but never set, so it is
  not modelled.
- Unmounting: after a game reports, the session moves on and the component is
  gone. Each game's `Run`/`Play` function stops at the first report.
- Stroop's puzzle text is kept, but only the ink decides an answer. The four
  colors stand for the `options` table; the class names are not modelled.
- In the aim game, the interval tick and the effect that ends the game when the time
  reaches 0 are merged into one transition.
- In number recall, the typed answer is a string compared with the number's
  decimal text, as the source does. Browser rules for editing a numeric
  `<input>` are not modelled.
- Monkey Mind's `Chimp.Click` also accepts the ids of hidden tiles (tile 1
  once play starts, and tiles already cleared). The screen never renders a
  hidden tile, so those clicks cannot happen.

## Findings

| source | as written | input that shows it | evidently intended | confidence | as-written member | corrected member |
|---|---|---|---|---|---|---|
| src/App.jsx:859-874 | `handleGameComplete` advances from the reporting game whatever step is shown, and the report timers of reaction, pattern and Monkey Mind are never cancelled, not by unmounting and not by restart | reaction reports, the pattern game is submitted, the player restarts within 2 s: the pattern report then moves the intro to the memory game with the old pattern score; likewise a reaction report set before a restart ends the next reaction attempt | leaving a step, restart included, cancels the report timers its game set, so no report from before a restart reaches the orchestrator | not executed | `Session.StaleReportSkipsAhead` | `Session.CancellingRestartForgets` |

=== FILE: aim.dfy ===
/** Ghost buster (an aim test): for ten seconds ghosts appear at random
    places and each one clicked counts a hit; the score is ten points per
    hit, at most 100. The ghosts' ids (taken from the clock) and positions
    are inputs. */
module Aim {
  import opened Common

  /** Seconds per game. */
  const Duration := 10

  datatype Ghost = Ghost(id: int, x: int, y: int)

  /** `hits` is the component's `score` state. */
  datatype Game = Game(ghosts: seq<Ghost>, hits: nat, timeLeft: int, active: bool)

  const Init := Game([], 0, Duration, false)

  /** `Math.min(100, score * 10)`. */
  function FinalScore(hits: nat): (r: int)
    ensures 0 <= r <= 100
    ensures r <= 10 * hits
    ensures r == 100 <==> hits >= 10
    ensures hits < 10 ==> r == 10 * hits
  {
    Min(100, hits * 10)
  }

  /** More hits never score less. */
  lemma FinalScoreMonotone(h1: nat, h2: nat)
    requires h1 <= h2
    ensures FinalScore(h1) <= FinalScore(h2)
  {
  }

  /** `prev.filter(g => g.id !== id)`: every ghost with that id goes, and
      every other ghost is still present. */
  function RemoveGhost(ghosts: seq<Ghost>, id: int): (r: seq<Ghost>)
    ensures forall g :: g in r <==> g in ghosts && g.id != id
    ensures |r| <= |ghosts|
    ensures (forall k :: 0 <= k < |ghosts| ==> ghosts[k].id != id) ==> r == ghosts
    ensures (exists k :: 0 <= k < |ghosts| && ghosts[k].id == id) ==> |r| < |ghosts|
    decreases |ghosts|
  {
    if |ghosts| == 0 then []
    else if ghosts[0].id == id then RemoveGhost(ghosts[1..], id)
    else
      var rest := RemoveGhost(ghosts[1..], id);
      assert ghosts == [ghosts[0]] + ghosts[1..];
      [ghosts[0]] + rest
  }

  /** The start button (shown only before the game has run): the game
      becomes active and the first ghost appears. */
  function StartHunt(g: Game, spawned: Ghost): (r: Game)
    ensures !g.active && g.timeLeft == Duration ==>
      r.active && r.ghosts == g.ghosts + [spawned] && r.hits == g.hits && r.timeLeft == g.timeLeft
    ensures !(!g.active && g.timeLeft == Duration) ==> r == g
  {
    if !g.active && g.timeLeft == Duration then g.(active := true, ghosts := g.ghosts + [spawned])
    else g
  }

  /** The spawner interval: while the game runs, one more ghost appears. */
  function Spawn(g: Game, spawned: Ghost): (r: Game)
    ensures g.active && g.timeLeft > 0 ==> r == g.(ghosts := g.ghosts + [spawned])
    ensures !(g.active && g.timeLeft > 0) ==> r == g
  {
    if g.active && g.timeLeft > 0 then g.(ghosts := g.ghosts + [spawned]) else g
  }

  /** `whackGhost(id)`: removes the ghosts with that id and counts a hit. */
  function Whack(g: Game, id: int): (r: Game)
    ensures r.hits == g.hits + 1
    ensures r.ghosts == RemoveGhost(g.ghosts, id)
    ensures r.timeLeft == g.timeLeft && r.active == g.active
  {
    g.(ghosts := RemoveGhost(g.ghosts, id), hits := g.hits + 1)
  }

  /** One tick of the second timer while the game runs, followed by the
      effect that ends the game once the time reaches 0 and reports the
      final score. */
  function Tick(g: Game): (o: (Game, Option<int>))
    ensures o.1.Some? <==> g.active && g.timeLeft == 1
    ensures o.1.Some? ==> o.1.value == FinalScore(g.hits) && !o.0.active && o.0.timeLeft == 0
    ensures o.0.hits == g.hits && o.0.ghosts == g.ghosts
    ensures g.active && g.timeLeft > 1 ==> o.0 == g.(timeLeft := g.timeLeft - 1)
    ensures !(g.active && g.timeLeft > 0) ==> o.0 == g
  {
    if g.active && g.timeLeft > 0 then
      var t := g.timeLeft - 1;
      if t == 0 then (g.(timeLeft := 0, active := false), Some(FinalScore(g.hits)))
      else (g.(timeLeft := t), None)
    else (g, None)
  }

  /** Ticks a game `n` times, stopping at the first report. */
  function Ticks(g: Game, n: nat): (o: (Game, Option<int>))
    decreases n
  {
    if n == 0 then (g, None)
    else
      var o := Tick(g);
      if o.1.Some? then o else Ticks(o.0, n - 1)
  }

  /** A running game with t seconds left reports after exactly t ticks,
      scoring its hits; fewer ticks report nothing. */
  lemma {:induction false} CountdownReports(g: Game, n: nat)
    requires g.active && 0 < g.timeLeft
    ensures n < g.timeLeft ==> Ticks(g, n).1.None? && Ticks(g, n).0 == g.(timeLeft := g.timeLeft - n)
    ensures n >= g.timeLeft ==> Ticks(g, n).1 == Some(FinalScore(g.hits))
    decreases n
  {
    if n > 0 && g.timeLeft > 1 {
      CountdownReports(Tick(g).0, n - 1);
    }
  }

  /** Whacks the ghosts with the given ids, in order. */
  function WhackAll(g: Game, ids: seq<int>): (r: Game)
    ensures r.hits == g.hits + |ids|
    ensures r.timeLeft == g.timeLeft && r.active == g.active
    decreases |ids|
  {
    if |ids| == 0 then g else WhackAll(Whack(g, ids[0]), ids[1..])
  }

  /** The whole game: started, `|ids|` ghosts whacked, and ten ticks later
      it reports min(100, 10 * |ids|). */
  lemma TenSecondsLater(spawned: Ghost, ids: seq<int>)
    ensures Ticks(WhackAll(StartHunt(Init, spawned), ids), Duration).1 == Some(FinalScore(|ids|))
  {
    CountdownReports(WhackAll(StartHunt(Init, spawned), ids), Duration);
  }
}

=== FILE: chimp.dfy ===
/** Monkey mind (a chimp test): five numbered tiles are placed at random
    non-overlapping positions; clicking 1 masks the others, which must then
    be clicked in order 2, 3, 4, 5 from memory. The random positions are
    inputs. */
module Chimp {
  import opened Common

  /** Tiles per game. */
  const Tiles := 5

  /** Positions are percentages `Math.floor(Math.random() * 80) + 10`. */
  const Lo := 10
  const Hi := 90

  /** Two tiles collide when closer than 15 points on both axes. */
  const Gap := 15

  datatype Visibility = Visible | Masked | Hidden

  datatype Tile = Tile(id: int, x: int, y: int, state: Visibility)

  function Abs(n: int): nat {
    if n < 0 then -n else n
  }

  predicate Collides(a: Tile, x: int, y: int) {
    Abs(a.x - x) < Gap && Abs(a.y - y) < Gap
  }

  /** `spots.some(s => ...)`: the position collides with a placed tile. */
  predicate AnyCollides(tiles: seq<Tile>, x: int, y: int) {
    exists k :: 0 <= k < |tiles| && Collides(tiles[k], x, y)
  }

  /** What the placement loop keeps true: tiles numbered 1, 2, ... in order,
      visible, inside the field, and no two colliding. */
  predicate WellPlaced(tiles: seq<Tile>) {
    && (forall k :: 0 <= k < |tiles| ==> tiles[k].id == k + 1 && tiles[k].state == Visible)
    && (forall k :: 0 <= k < |tiles| ==> Lo <= tiles[k].x < Hi && Lo <= tiles[k].y < Hi)
    && (forall j, k :: 0 <= j < k < |tiles| ==> !Collides(tiles[j], tiles[k].x, tiles[k].y))
  }

  /** The positions the placement loop keeps, as a reference definition:
      starting from the tiles already `placed`, each draw in turn becomes
      the next tile unless it collides with a placed tile, until five are
      placed; the remaining draws are never looked at. */
  function Keep(placed: seq<Tile>, draws: seq<(int, int)>): (r: seq<Tile>)
    ensures |placed| <= |r|
    ensures r[..|placed|] == placed
    decreases |draws|
  {
    if |placed| >= Tiles || |draws| == 0 then placed
    else if AnyCollides(placed, draws[0].0, draws[0].1) then Keep(placed, draws[1..])
    else Keep(placed + [Tile(|placed| + 1, draws[0].0, draws[0].1, Visible)], draws[1..])
  }

  /** One step of the reference definition, below five tiles. */
  lemma KeepStep(placed: seq<Tile>, draws: seq<(int, int)>)
    requires |placed| < Tiles && 0 < |draws|
    ensures !AnyCollides(placed, draws[0].0, draws[0].1) ==>
      Keep(placed, draws) == Keep(placed + [Tile(|placed| + 1, draws[0].0, draws[0].1, Visible)], draws[1..])
    ensures AnyCollides(placed, draws[0].0, draws[0].1) ==> Keep(placed, draws) == Keep(placed, draws[1..])
  {
  }

  /** A drawn position is accounted for by the placed tiles: it became one
      of them, or it collides with one of them. */
  predicate Accounted(tiles: seq<Tile>, d: (int, int)) {
    (exists j :: 0 <= j < |tiles| && (tiles[j].x, tiles[j].y) == d) || AnyCollides(tiles, d.0, d.1)
  }

  /** Placing another tile keeps every accounted position accounted. */
  lemma AccountedGrows(tiles: seq<Tile>, t: Tile, d: (int, int))
    requires Accounted(tiles, d)
    ensures Accounted(tiles + [t], d)
  {
    if exists j :: 0 <= j < |tiles| && (tiles[j].x, tiles[j].y) == d {
      var j :| 0 <= j < |tiles| && (tiles[j].x, tiles[j].y) == d;
      assert (tiles + [t])[j] == tiles[j];
    } else {
      var j :| 0 <= j < |tiles| && Collides(tiles[j], d.0, d.1);
      assert (tiles + [t])[j] == tiles[j];
    }
  }

  /** A tile at a position that collides with none already placed keeps the
      placement well placed. */
  lemma PlaceNext(tiles: seq<Tile>, x: int, y: int)
    requires WellPlaced(tiles) && !AnyCollides(tiles, x, y)
    requires Lo <= x < Hi && Lo <= y < Hi
    ensures WellPlaced(tiles + [Tile(|tiles| + 1, x, y, Visible)])
  {
  }

  /** The placement loop, fed with the random positions it would draw: a
      position is kept unless it collides with a tile already placed, until
      five tiles are placed. `used` is how many draws were consumed; if the
      draws run out first, fewer tiles are placed (the program would keep
      drawing). */
  method Place(draws: seq<(int, int)>) returns (tiles: seq<Tile>, used: nat)
    requires forall k :: 0 <= k < |draws| ==> Lo <= draws[k].0 < Hi && Lo <= draws[k].1 < Hi
    ensures tiles == Keep([], draws)
    ensures WellPlaced(tiles)
    ensures |tiles| <= Tiles && used <= |draws|
    ensures |tiles| == Tiles || used == |draws|
    ensures forall k :: 0 <= k < |tiles| ==> (tiles[k].x, tiles[k].y) in draws[..used]
    ensures forall k :: 0 <= k < used ==> Accounted(tiles, draws[k])
    ensures |tiles| == Tiles ==> 0 < used && (tiles[Tiles - 1].x, tiles[Tiles - 1].y) == draws[used - 1]
  {
    tiles := [];
    used := 0;
    while |tiles| < Tiles && used < |draws|
      invariant used <= |draws| && |tiles| <= Tiles
      invariant WellPlaced(tiles)
      invariant Keep(tiles, draws[used..]) == Keep([], draws)
      invariant forall k :: 0 <= k < |tiles| ==> (tiles[k].x, tiles[k].y) in draws[..used]
      invariant forall k :: 0 <= k < used ==> Accounted(tiles, draws[k])
      invariant |tiles| == Tiles ==> 0 < used && (tiles[Tiles - 1].x, tiles[Tiles - 1].y) == draws[used - 1]
    {
      var d := draws[used];
      assert draws[..used + 1] == draws[..used] + [d];
      assert draws[used..][1..] == draws[used + 1..];
      KeepStep(tiles, draws[used..]);
      if !AnyCollides(tiles, d.0, d.1) {
        var t := Tile(|tiles| + 1, d.0, d.1, Visible);
        forall k | 0 <= k < used
          ensures Accounted(tiles + [t], draws[k])
        {
          AccountedGrows(tiles, t, draws[k]);
        }
        PlaceNext(tiles, d.0, d.1);
        assert (tiles + [t])[|tiles|] == t;
        tiles := tiles + [t];
      }
      used := used + 1;
    }
    assert |tiles| == Tiles || draws[used..] == [];
  }

  datatype Status = Memorize | Play | Lost

  /** `expected` is `nextExpected`, the id the player must click next. */
  datatype Game = Game(tiles: seq<Tile>, status: Status, expected: int)

  /** The game once the tiles are placed: all visible, waiting for 1. */
  function Begin(tiles: seq<Tile>): Game {
    Game(tiles, Memorize, 1)
  }

  /** A transition and the score it reports, if any. */
  datatype Outcome = Outcome(next: Game, report: Option<int>)

  /** Sets every tile's visibility by a rule on its id. */
  function Restyle(tiles: seq<Tile>, f: int -> Visibility): (r: seq<Tile>)
    ensures |r| == |tiles|
    ensures forall k :: 0 <= k < |r| ==> r[k] == tiles[k].(state := f(tiles[k].id))
  {
    seq(|tiles|, k requires 0 <= k < |tiles| => tiles[k].(state := f(tiles[k].id)))
  }

  /** Hides the tile(s) numbered `id`, leaving the rest alone. */
  function Hide(tiles: seq<Tile>, id: int): (r: seq<Tile>)
    ensures |r| == |tiles|
    ensures forall k :: 0 <= k < |r| ==>
      r[k] == (if tiles[k].id == id then tiles[k].(state := Hidden) else tiles[k])
  {
    seq(|tiles|, k requires 0 <= k < |tiles| =>
      if tiles[k].id == id then tiles[k].(state := Hidden) else tiles[k])
  }

  /** `handleNumberClick(tile)`, for a click on the tile numbered `id`:
      - lost: ignored;
      - 1 while memorising: play starts, 1 is hidden and the others masked;
      - the expected id while playing: that tile is hidden, and the fifth
        reports 100 (otherwise the next id is expected);
      - any other id while playing: lost, every tile revealed, reports 0;
      - any other id while memorising: ignored.
      The win reports at once; the loss's 0 is handed to the 1.5 s report
      timer that `Session.World` models. */
  function Click(g: Game, id: int): (o: Outcome)
    ensures g.status == Lost ==> o == Outcome(g, None)
    ensures g.status == Memorize && id != 1 ==> o == Outcome(g, None)
    ensures g.status == Memorize && id == 1 ==>
      o.report.None? && o.next.status == Play && o.next.expected == 2
    ensures g.status == Play && id != g.expected ==>
      o.report == Some(0) && o.next.status == Lost && o.next.expected == g.expected &&
      forall k :: 0 <= k < |o.next.tiles| ==> o.next.tiles[k].state == Visible
    ensures g.status == Play && id == g.expected ==>
      o.next.status == Play &&
      (if g.expected == Tiles then o.report == Some(100) && o.next.expected == g.expected
       else o.report.None? && o.next.expected == g.expected + 1)
    ensures |o.next.tiles| == |g.tiles|
    ensures g.status == Memorize && id == 1 ==> forall k :: 0 <= k < |g.tiles| ==>
      o.next.tiles[k] == g.tiles[k].(state := if g.tiles[k].id == 1 then Hidden else Masked)
    ensures g.status == Play && id == g.expected ==> o.next.tiles == Hide(g.tiles, id)
    ensures g.status == Play && id != g.expected ==> forall k :: 0 <= k < |g.tiles| ==>
      o.next.tiles[k] == g.tiles[k].(state := Visible)
  {
    match g.status
    case Lost => Outcome(g, None)
    case Memorize =>
      if id == 1 then
        Outcome(Game(Restyle(g.tiles, i => if i == 1 then Hidden else Masked), Play, 2), None)
      else Outcome(g, None)
    case Play =>
      if id == g.expected then
        if g.expected == Tiles then Outcome(Game(Hide(g.tiles, id), Play, g.expected), Some(100))
        else Outcome(Game(Hide(g.tiles, id), Play, g.expected + 1), None)
      else
        Outcome(Game(Restyle(g.tiles, i => Visible), Lost, g.expected), Some(0))
  }

  /** Feeds clicks in order until the game reports a score (after which the
      session moves on and the game is gone). */
  function Run(g: Game, clicks: seq<int>): (r: Option<int>)
    ensures g.status == Lost ==> r.None?
    decreases |clicks|
  {
    if |clicks| == 0 then None
    else
      var o := Click(g, clicks[0]);
      if o.report.Some? then o.report else Run(o.next, clicks[1..])
  }

  /** The clicks start with e, e + 1, ..., 5. */
  predicate InOrderFrom(clicks: seq<int>, e: int)
    requires 1 <= e <= Tiles
  {
    |clicks| >= Tiles + 1 - e && forall i :: 0 <= i < Tiles + 1 - e ==> clicks[i] == e + i
  }

  /** While playing with `e` expected, the game reports 100 exactly when the
      next clicks are e, ..., 5, and otherwise reports 0 or nothing. */
  lemma {:induction false} PlayRun(g: Game, clicks: seq<int>)
    requires g.status == Play && 2 <= g.expected <= Tiles
    ensures Run(g, clicks) == Some(100) <==> InOrderFrom(clicks, g.expected)
    ensures Run(g, clicks) in {None, Some(0), Some(100)}
    decreases |clicks|
  {
    if |clicks| > 0 {
      var o := Click(g, clicks[0]);
      if clicks[0] == g.expected && g.expected < Tiles {
        PlayRun(o.next, clicks[1..]);
        if InOrderFrom(clicks, g.expected) {
          assert InOrderFrom(clicks[1..], g.expected + 1) by {
            forall i | 0 <= i < Tiles - g.expected
              ensures clicks[1..][i] == g.expected + 1 + i
            {
              assert clicks[i + 1] == g.expected + (i + 1);
            }
          }
        }
        if InOrderFrom(clicks[1..], g.expected + 1) {
          assert InOrderFrom(clicks, g.expected) by {
            forall i | 0 <= i < Tiles + 1 - g.expected
              ensures clicks[i] == g.expected + i
            {
              if i > 0 {
                assert clicks[1..][i - 1] == g.expected + 1 + (i - 1);
              }
            }
          }
        }
      } else if clicks[0] != g.expected {
        assert !InOrderFrom(clicks, g.expected) by {
          if |clicks| >= Tiles + 1 - g.expected {
            assert clicks[0] != g.expected + 0;
          }
        }
      }
    }
  }

  /** Whatever follows the first click on 1. */
  function AfterFirst(clicks: seq<int>, v: int): (rest: seq<int>)
    requires v in clicks
    ensures |rest| < |clicks|
    decreases |clicks|
  {
    if clicks[0] == v then clicks[1..] else AfterFirst(clicks[1..], v)
  }

  /** Clicks before the first 1 are ignored, so a game from its start reports
      whatever the play phase after that 1 reports. */
  lemma {:induction false} MemorizeRun(g: Game, clicks: seq<int>)
    requires g.status == Memorize
    ensures 1 !in clicks ==> Run(g, clicks).None?
    ensures 1 in clicks ==> Run(g, clicks) == Run(Click(g, 1).next, AfterFirst(clicks, 1))
    decreases |clicks|
  {
    if |clicks| > 0 && clicks[0] != 1 {
      MemorizeRun(g, clicks[1..]);
      assert 1 in clicks ==> 1 in clicks[1..];
    }
  }

  /** The game reports 100 exactly when, after any clicks on other tiles,
      the player clicks 1, 2, 3, 4, 5 in a row; any other run reports 0 or
      nothing. */
  lemma WinIffInOrder(tiles: seq<Tile>, clicks: seq<int>)
    ensures Run(Begin(tiles), clicks) == Some(100) <==>
      1 in clicks && InOrderFrom(AfterFirst(clicks, 1), 2)
    ensures Run(Begin(tiles), clicks) in {None, Some(0), Some(100)}
  {
    MemorizeRun(Begin(tiles), clicks);
    if 1 in clicks {
      PlayRun(Click(Begin(tiles), 1).next, AfterFirst(clicks, 1));
    }
  }

  /** The five tiles clicked in order from the start score 100. */
  lemma PerfectGame(tiles: seq<Tile>)
    ensures Run(Begin(tiles), [1, 2, 3, 4, 5]) == Some(100)
  {
    WinIffInOrder(tiles, [1, 2, 3, 4, 5]);
    assert AfterFirst([1, 2, 3, 4, 5], 1) == [2, 3, 4, 5];
  }
}

=== FILE: common.dfy ===
/** Small shared vocabulary: an optional value, integer min/max/clamp and the
    JavaScript `Math.round` of a quotient, all over unbounded integers. */
module Common {

  /** A value that may be absent, e.g. the score a handler may or may not report. */
  datatype Option<T> = None | Some(value: T)

  /** `Math.min(a, b)` */
  function Min(a: int, b: int): (r: int)
    ensures r <= a && r <= b
    ensures r == a || r == b
  {
    if a <= b then a else b
  }

  /** `Math.max(a, b)` */
  function Max(a: int, b: int): (r: int)
    ensures r >= a && r >= b
    ensures r == a || r == b
  {
    if a >= b then a else b
  }

  /** `Math.max(lo, Math.min(hi, x))`: the point of [lo, hi] nearest to x. */
  function Clamp(lo: int, hi: int, x: int): (r: int)
    requires lo <= hi
    ensures lo <= r <= hi
    ensures lo <= x <= hi ==> r == x
    ensures x < lo ==> r == lo
    ensures x > hi ==> r == hi
  {
    Max(lo, Min(hi, x))
  }

  /** `Math.round(n / d)` for a positive divisor, computed exactly over the
      rationals: the integer nearest to n/d, halves rounded towards +infinity.
      The contract says exactly that: r - 1/2 <= n/d < r + 1/2. */
  function RoundDiv(n: int, d: int): (r: int)
    requires d > 0
    ensures 2 * d * r - d <= 2 * n < 2 * d * r + d
  {
    var q := (2 * n + d) / (2 * d);
    DivBounds(2 * n + d, 2 * d);
    q
  }

  /** Floor division brackets its dividend. */
  lemma DivBounds(a: int, b: int)
    requires b > 0
    ensures b * (a / b) <= a < b * (a / b) + b
  {
  }

  /** A multiple of a positive d below d has a factor below 1. */
  lemma LessThanOne(d: int, k: int)
    requires d > 0 && d * k < d
    ensures k < 1
  {
  }

  /** The rounded quotient is unique: any integer satisfying the rounding
      bracket is the one `RoundDiv` returns. */
  lemma RoundDivUnique(n: int, d: int, r: int)
    requires d > 0
    requires 2 * d * r - d <= 2 * n < 2 * d * r + d
    ensures RoundDiv(n, d) == r
  {
    var q := RoundDiv(n, d);
    assert d * (q - r) < d && d * (r - q) < d;
    LessThanOne(d, q - r);
    LessThanOne(d, r - q);
  }
}

=== FILE: number_recall.dfy ===
/** Number recall: a number of `level + 2` digits is shown, then typed back.
    A right answer moves to the next level (four levels in all), a wrong one
    ends the game with 25 points per level cleared. The random draw behind
    each number is an input. */
module NumberRecall {
  import opened Common

  /** The last level; clearing it scores 100. */
  const MaxLevel := 4

  function Pow10(n: nat): (p: nat)
    ensures p >= 1
  {
    if n == 0 then 1 else 10 * Pow10(n - 1)
  }

  function DigitChar(d: nat): char
    requires d < 10
  {
    "0123456789"[d]
  }

  /** `n.toString()` for a non-negative integer: decimal digits, no leading
      zeros. */
  function Decimal(n: nat): (s: string)
    ensures 1 <= |s|
    decreases n
  {
    if n < 10 then [DigitChar(n)] else Decimal(n / 10) + [DigitChar(n % 10)]
  }

  /** A number in [10^(d-1), 10^d) is written with exactly d digits. */
  lemma {:induction false} DecimalLength(n: nat, d: nat)
    requires 1 <= d && Pow10(d - 1) <= n < Pow10(d)
    ensures |Decimal(n)| == d
    decreases d
  {
    if d > 1 {
      var p := Pow10(d - 2);
      assert Pow10(d - 1) == 10 * p;
      assert Pow10(d) == 100 * p;
      assert 10 <= n;
      DivBounds(n, 10);
      assert p <= n / 10;
      assert n / 10 < 10 * p;
      DecimalLength(n / 10, d - 1);
    } else {
      assert n < 10;
    }
  }

  /** How many numbers have the digit count of `level`. */
  function Span(level: nat): (k: nat)
    ensures k >= 1
  {
    assert Pow10(level + 2) == 10 * Pow10(level + 1);
    Pow10(level + 2) - Pow10(level + 1)
  }

  /** `Math.floor(Math.random() * (10^d - 10^(d-1))) + 10^(d-1)` with
      d = level + 2, given the draw `Math.floor(Math.random() * Span(level))`:
      a number with exactly level + 2 digits. */
  function NewNumber(level: nat, draw: nat): (n: nat)
    requires draw < Span(level)
    ensures Pow10(level + 1) <= n < Pow10(level + 2)
    ensures |Decimal(n)| == level + 2
  {
    var n := Pow10(level + 1) + draw;
    DecimalLength(n, level + 2);
    n
  }

  datatype Phase = Show | Input | Feedback

  /** `number` is the shown number's text, `input` what the player typed. */
  datatype Game = Game(level: nat, phase: Phase, number: string, input: string)

  /** The game's invariant: the level is between 1 and 4, and the feedback
      phase (which leads to the next level) never occurs at the last level. */
  predicate Valid(g: Game) {
    1 <= g.level <= MaxLevel && (g.phase == Feedback ==> g.level < MaxLevel)
  }

  /** The game on mount: level 1, showing a 3-digit number. */
  function Begin(draw: nat): (g: Game)
    requires draw < Span(1)
    ensures Valid(g) && g.level == 1 && g.phase == Show && |g.number| == 3
  {
    Game(1, Show, Decimal(NewNumber(1, draw)), "")
  }

  datatype Event =
    | Shown              // the show timer (1000 + 500 * level ms) fires
    | Typed(text: string) // the input field changes
    | Submit             // the form is submitted
    | Advance(draw: nat)  // the feedback timer fires; `draw` picks the next number

  /** The draw behind the next number fits the next level's digit count. */
  predicate DrawFits(g: Game, e: Event) {
    e.Advance? && g.phase == Feedback ==> e.draw < Span(g.level + 1)
  }

  /** One transition and the score it reports, if any. The show timer runs
      only in the show phase, the form exists only in the input phase and
      the feedback timer only in the feedback phase. */
  function Step(g: Game, e: Event): (o: (Game, Option<int>))
    requires DrawFits(g, e)
    ensures Valid(g) ==> Valid(o.0)
    ensures o.1.Some? <==> e.Submit? && g.phase == Input && (g.input != g.number || g.level >= MaxLevel)
    ensures Valid(g) && o.1.Some? ==> 0 <= o.1.value <= 100 && o.1.value % 25 == 0
    ensures o.1.Some? && g.input == g.number ==> o.1.value == 100
    ensures o.1.Some? && g.input != g.number ==> o.1.value == 25 * (g.level - 1)
    ensures Valid(g) && o.1.Some? && g.input == g.number ==> g.level == MaxLevel
    ensures e.Submit? && g.phase == Input && g.input == g.number && g.level < MaxLevel ==>
      o.0 == g.(phase := Feedback)
    ensures e.Advance? && g.phase == Feedback ==>
      o.0.level == g.level + 1 && o.0.phase == Show && o.0.input == "" && |o.0.number| == g.level + 3
    ensures o.0.level != g.level ==> e.Advance? && g.phase == Feedback
    ensures e.Shown? ==> o == (if g.phase == Show then g.(phase := Input) else g, None)
    ensures e.Typed? ==> o == (if g.phase == Input then g.(input := e.text) else g, None)
    ensures e.Advance? && g.phase == Feedback ==>
      o == (Game(g.level + 1, Show, Decimal(NewNumber(g.level + 1, e.draw)), ""), None)
    ensures (e.Submit? && g.phase != Input) || (e.Advance? && g.phase != Feedback) ==> o == (g, None)
    ensures o.1.Some? ==> o.0 == g
  {
    match e
    case Shown =>
      if g.phase == Show then (g.(phase := Input), None) else (g, None)
    case Typed(text) =>
      if g.phase == Input then (g.(input := text), None) else (g, None)
    case Submit =>
      if g.phase != Input then (g, None)
      else if g.input == g.number then
        if g.level >= MaxLevel then (g, Some(100))
        else (g.(phase := Feedback), None)
      else (g, Some((g.level - 1) * 25))
    case Advance(draw) =>
      if g.phase == Feedback then
        (Game(g.level + 1, Show, Decimal(NewNumber(g.level + 1, draw)), ""), None)
      else (g, None)
  }

  /** The only way to 100 is a right answer at the last level; a wrong answer
      at level L scores 25 for each of the L - 1 levels cleared before it, so
      never 100. */
  lemma HundredOnlyAtLastLevel(g: Game, e: Event)
    requires Valid(g) && DrawFits(g, e)
    requires Step(g, e).1 == Some(100)
    ensures g.level == MaxLevel && g.input == g.number
  {
  }

  /** A right answer below the last level leads, after the feedback pause,
      to the next level with a fresh number one digit longer and an empty
      input. */
  lemma RightAnswerAdvances(g: Game, draw: nat)
    requires Valid(g) && g.phase == Input && g.input == g.number && g.level < MaxLevel
    requires draw < Span(g.level + 1)
    ensures Step(g, Submit).1.None?
    ensures var h := Step(Step(g, Submit).0, Advance(draw)).0;
      h.level == g.level + 1 && h.phase == Show && h.input == "" && |h.number| == g.level + 3
  {
  }
}

=== FILE: pattern.dfy ===
/** The pattern game: four of nine cells are shown for three seconds, then
    the player toggles cells to recreate them and submits. */
module Pattern {
  import opened Common

  /** Cells in the 3x3 grid and cells marked in a pattern. */
  const Cells := 9
  const Targets := 4

  /** Number of marked cells. */
  function Count(cells: seq<bool>): (n: nat)
    ensures n <= |cells|
    decreases |cells|
  {
    if |cells| == 0 then 0
    else (if cells[0] then 1 else 0) + Count(cells[1..])
  }

  /** Marking an unmarked cell adds one to the count. */
  lemma {:induction false} CountMark(cells: seq<bool>, i: nat)
    requires i < |cells| && !cells[i]
    ensures Count(cells[i := true]) == Count(cells) + 1
    decreases |cells|
  {
    if i > 0 {
      assert cells[i := true][1..] == cells[1..][i - 1 := true];
      CountMark(cells[1..], i - 1);
    }
  }

  /** A grid of `n` unmarked cells (`Array(n).fill(false)`). */
  function Blank(n: nat): (cells: seq<bool>)
    ensures |cells| == n && Count(cells) == 0
    ensures forall i :: 0 <= i < n ==> !cells[i]
    decreases n
  {
    if n == 0 then [] else
      var rest := Blank(n - 1);
      assert ([false] + rest)[1..] == rest;
      [false] + rest
  }

  /** The rejection loop that picks the pattern, fed with the random cell
      indices it would draw: each draw marks its cell unless that cell is
      already marked, until four cells are marked. `used` is how many draws
      were consumed; if the draws run out first, fewer than four cells are
      marked (the program would keep drawing). */
  method Generate(draws: seq<int>) returns (grid: seq<bool>, used: nat)
    requires forall k :: 0 <= k < |draws| ==> 0 <= draws[k] < Cells
    ensures |grid| == Cells && used <= |draws|
    ensures Count(grid) <= Targets
    ensures Count(grid) == Targets || used == |draws|
    ensures forall i :: 0 <= i < Cells ==> (grid[i] <==> i in draws[..used])
    ensures Count(grid) == Targets && used > 0 ==> draws[used - 1] !in draws[..used - 1]
  {
    grid := Blank(Cells);
    var count := 0;
    used := 0;
    while count < Targets && used < |draws|
      invariant used <= |draws| && |grid| == Cells
      invariant count == Count(grid) <= Targets
      invariant forall i :: 0 <= i < Cells ==> (grid[i] <==> i in draws[..used])
      invariant count == Targets && used > 0 ==> draws[used - 1] !in draws[..used - 1]
    {
      var idx := draws[used];
      assert draws[..used + 1] == draws[..used] + [idx];
      if !grid[idx] {
        CountMark(grid, idx);
        grid := grid[idx := true];
        count := count + 1;
      }
      used := used + 1;
    }
  }

  datatype Phase = Memorize | Recall | Result

  /** `grid` is the pattern to recreate, `user` the player's cells. */
  datatype Game = Game(grid: seq<bool>, user: seq<bool>, phase: Phase, countdown: int)

  /** A fresh game on a generated grid: nothing selected, three seconds to
      memorise. */
  function NewGame(grid: seq<bool>): (g: Game)
    requires |grid| == Cells
    ensures g.grid == grid
    ensures |g.user| == |g.grid| && Count(g.user) == 0
    ensures forall i :: 0 <= i < |g.user| ==> !g.user[i]
    ensures g.phase == Memorize && g.countdown == 3
  {
    Game(grid, Blank(Cells), Memorize, 3)
  }

  /** One tick of the one-second countdown: the tick that finds it at 1 (or
      less) switches to recall and stops the interval. */
  function Tick(g: Game): (r: Game)
    ensures r.grid == g.grid && r.user == g.user
    ensures g.phase == Memorize && g.countdown <= 1 ==> r.phase == Recall && r.countdown == 0
    ensures g.phase == Memorize && g.countdown > 1 ==> r.phase == Memorize && r.countdown == g.countdown - 1
    ensures g.phase != Memorize ==> r == g
  {
    if g.phase != Memorize then g
    else if g.countdown <= 1 then g.(phase := Recall, countdown := 0)
    else g.(countdown := g.countdown - 1)
  }

  /** Three ticks end the memorise phase. */
  lemma ThreeTicksToRecall(grid: seq<bool>)
    requires |grid| == Cells
    ensures Tick(Tick(Tick(NewGame(grid)))).phase == Recall
    ensures Tick(Tick(NewGame(grid))).phase == Memorize
  {
  }

  /** `handleCellClick(i)`: during recall flips cell `i` of the player's
      pattern and nothing else; in any other phase does nothing. */
  function Toggle(g: Game, i: nat): (r: Game)
    requires i < |g.user|
    ensures r.grid == g.grid && r.phase == g.phase && r.countdown == g.countdown
    ensures |r.user| == |g.user|
    ensures g.phase == Recall ==> r.user[i] == !g.user[i]
    ensures forall j :: 0 <= j < |g.user| && (j != i || g.phase != Recall) ==> r.user[j] == g.user[j]
  {
    if g.phase != Recall then g
    else g.(user := g.user[i := !g.user[i]])
  }

  /** Toggling the same cell twice restores the game. */
  lemma ToggleTwice(g: Game, i: nat)
    requires i < |g.user|
    ensures Toggle(Toggle(g, i), i) == g
  {
    if g.phase == Recall {
      assert Toggle(Toggle(g, i), i).user == g.user;
    }
  }

  /** Cells marked in both the pattern and the player's answer. */
  function Hits(grid: seq<bool>, user: seq<bool>): (n: nat)
    requires |grid| == |user|
    ensures n <= Count(grid) && n <= Count(user)
    decreases |grid|
  {
    if |grid| == 0 then 0
    else (if grid[0] && user[0] then 1 else 0) + Hits(grid[1..], user[1..])
  }

  /** Cells the player marked that the pattern does not. */
  function Mistakes(grid: seq<bool>, user: seq<bool>): (n: nat)
    requires |grid| == |user|
    ensures Hits(grid, user) + n == Count(user)
    decreases |grid|
  {
    if |grid| == 0 then 0
    else (if !grid[0] && user[0] then 1 else 0) + Mistakes(grid[1..], user[1..])
  }

  /** `Math.max(0, correct * 25 - mistakes * 15)`. With a four-cell pattern
      the score is at most 100. */
  function PatternScore(grid: seq<bool>, user: seq<bool>): (r: int)
    requires |grid| == |user|
    ensures 0 <= r
    ensures Count(grid) == Targets ==> r <= 100
    ensures r > 0 ==> r + 15 * Mistakes(grid, user) == 25 * Hits(grid, user)
    ensures r >= 25 * Hits(grid, user) - 15 * Mistakes(grid, user)
  {
    Max(0, Hits(grid, user) * 25 - Mistakes(grid, user) * 15)
  }

  /** Every marked cell of the pattern is hit exactly when the hits reach
      the pattern's count. */
  lemma {:induction false} AllHit(grid: seq<bool>, user: seq<bool>)
    requires |grid| == |user|
    ensures Hits(grid, user) == Count(grid) <==> forall i :: 0 <= i < |grid| && grid[i] ==> user[i]
    decreases |grid|
  {
    if |grid| > 0 {
      AllHit(grid[1..], user[1..]);
      if forall i :: 0 <= i < |grid| && grid[i] ==> user[i] {
        assert forall i :: 0 <= i < |grid[1..]| && grid[1..][i] ==> user[1..][i] by {
          forall i | 0 <= i < |grid[1..]| && grid[1..][i] ensures user[1..][i] {
            assert grid[i + 1];
          }
        }
      }
    }
  }

  /** No mistakes exactly when every cell the player marked is in the pattern. */
  lemma {:induction false} NoMistakes(grid: seq<bool>, user: seq<bool>)
    requires |grid| == |user|
    ensures Mistakes(grid, user) == 0 <==> forall i :: 0 <= i < |grid| && user[i] ==> grid[i]
    decreases |grid|
  {
    if |grid| > 0 {
      NoMistakes(grid[1..], user[1..]);
      if forall i :: 0 <= i < |grid| && user[i] ==> grid[i] {
        assert forall i :: 0 <= i < |grid[1..]| && user[1..][i] ==> grid[1..][i] by {
          forall i | 0 <= i < |grid[1..]| && user[1..][i] ensures grid[1..][i] {
            assert user[i + 1];
          }
        }
      }
    }
  }

  /** With a four-cell pattern the score is 100 exactly when the player's
      answer is the pattern. */
  lemma PerfectIffExact(grid: seq<bool>, user: seq<bool>)
    requires |grid| == |user| && Count(grid) == Targets
    ensures PatternScore(grid, user) == 100 <==> user == grid
  {
    AllHit(grid, user);
    NoMistakes(grid, user);
    if user == grid {
      assert Hits(grid, user) == Count(grid) && Mistakes(grid, user) == 0;
    }
    if PatternScore(grid, user) == 100 {
      assert Hits(grid, user) == 4 && Mistakes(grid, user) == 0;
      assert forall i :: 0 <= i < |grid| ==> user[i] == grid[i];
    }
  }

  /** `handleSubmit`: scores the answer against the pattern and shows the
      result. The submit button is rendered only during recall, so in any
      other phase nothing happens. The reported score is the one handed to
      the 2 s report timer; `Session.World` models that timer. */
  function Submit(g: Game): (o: (Game, Option<int>))
    requires |g.grid| == |g.user|
    ensures o.1.Some? <==> g.phase == Recall
    ensures o.1.Some? ==> o.0 == g.(phase := Result) && o.1.value == PatternScore(g.grid, g.user)
    ensures o.1.Some? && Count(g.grid) == Targets ==> 0 <= o.1.value <= 100
    ensures o.1.None? ==> o.0 == g
  {
    if g.phase != Recall then (g, None)
    else (g.(phase := Result), Some(PatternScore(g.grid, g.user)))
  }
}

=== FILE: reaction.dfy ===
/** The reaction test: wait for the signal, click, and score the delay. The
    clock and the random delay are inputs: each event carries the time it
    happens at, in milliseconds. */
module Reaction {
  import opened Common

  /** Statuses of the test. `Ready` remembers when the signal appeared and
      `Finished` the measured delay. */
  datatype Status = Idle | Waiting | Ready(startTime: int) | Early | Finished(result: int)

  datatype Event =
    | StartTest               // the start / try-again button
    | DelayElapsed(now: int)  // the random delay's timer fires
    | Click(now: int)         // a click on the test area

  /** A transition: the next status and, when the test ends, the score
      handed to the session. */
  datatype Outcome = Outcome(next: Status, report: Option<int>)

  /** Score for a delay of `diff` ms:
      `Math.max(0, Math.min(100, Math.round(100 - (diff - 200) / 4)))`.
      200 ms or less (up to 202 ms after rounding) earns 100, each further
      4 ms costs a point, and 599 ms or more earns 0. */
  function Score(diff: int): (r: int)
    ensures 0 <= r <= 100
    ensures diff <= 202 ==> r == 100
    ensures diff >= 599 ==> r == 0
    ensures 202 < diff < 599 ==> 8 * r - 4 <= 2 * (600 - diff) < 8 * r + 4
  {
    Clamp(0, 100, RoundDiv(600 - diff, 4))
  }

  /** The unclamped formula is `(602 - diff) / 4` under floor division. */
  lemma ScoreIsShiftedFloor(diff: int)
    ensures Score(diff) == Clamp(0, 100, (602 - diff) / 4)
  {
    DivBounds(602 - diff, 4);
    RoundDivUnique(600 - diff, 4, (602 - diff) / 4);
  }

  /** A slower reaction never scores more. */
  lemma ScoreMonotone(d1: int, d2: int)
    requires d1 <= d2
    ensures Score(d2) <= Score(d1)
  {
    ScoreIsShiftedFloor(d1);
    ScoreIsShiftedFloor(d2);
    DivBounds(602 - d1, 4);
    DivBounds(602 - d2, 4);
  }

  /** One transition. The start button is shown only while idle or after an
      early click; the only pending timer is the one set by the last start,
      and it is cancelled by an early click; clicks are handled only while
      waiting, ready or early, and an early status ignores them. The signal
      records the time it appears, and a click while ready measures the
      delay from it. The reported score is the one handed to the 2 s report
      timer; `Session.World` models that timer. */
  function Step(s: Status, e: Event): (o: Outcome)
    ensures o.report.Some? <==> s.Ready? && e.Click?
    ensures o.report.Some? ==>
      o.next == Finished(e.now - s.startTime) &&
      o.report.value == Score(e.now - s.startTime) &&
      0 <= o.report.value <= 100
    ensures s.Waiting? && e.Click? ==> o == Outcome(Early, None)
    ensures e.StartTest? && (s.Idle? || s.Early?) ==> o.next == Waiting
    ensures s.Finished? ==> o.next == s
    ensures e.DelayElapsed? ==> o == Outcome(if s.Waiting? then Ready(e.now) else s, None)
    ensures e.Click? && (s.Idle? || s.Early? || s.Finished?) ==> o == Outcome(s, None)
    ensures e.StartTest? && !(s.Idle? || s.Early?) ==> o == Outcome(s, None)
  {
    match e
    case StartTest =>
      if s.Idle? || s.Early? then Outcome(Waiting, None) else Outcome(s, None)
    case DelayElapsed(now) =>
      if s.Waiting? then Outcome(Ready(now), None) else Outcome(s, None)
    case Click(now) =>
      match s
      case Waiting => Outcome(Early, None)
      case Ready(t) => Outcome(Finished(now - t), Some(Score(now - t)))
      case _ => Outcome(s, None)
  }

  /** Feeds events in order until the test reports a score (after which the
      session moves on and the test is gone). */
  function Run(s: Status, events: seq<Event>): (o: Outcome)
    ensures o.report.Some? ==> 0 <= o.report.value <= 100 && o.next.Finished?
    decreases |events|
  {
    if |events| == 0 then Outcome(s, None)
    else
      var o := Step(s, events[0]);
      if o.report.Some? then o else Run(o.next, events[1..])
  }

  /** Clicking before the signal never scores: a run whose every click
      falls while waiting (or early) reports nothing. */
  lemma {:induction false} EarlyClicksNeverReport(s: Status, events: seq<Event>)
    requires s.Idle? || s.Waiting? || s.Early?
    requires forall i :: 0 <= i < |events| ==> !events[i].DelayElapsed?
    ensures Run(s, events).report.None?
    decreases |events|
  {
    if |events| > 0 {
      var o := Step(s, events[0]);
      assert o.next.Idle? || o.next.Waiting? || o.next.Early?;
      EarlyClicksNeverReport(o.next, events[1..]);
    }
  }

  /** The test from the idle screen: start, the signal at time t0, a click at
      t1 reports the score of the delay t1 - t0. */
  lemma HappyPath(t0: int, t1: int)
    ensures Run(Idle, [StartTest, DelayElapsed(t0), Click(t1)]) ==
      Outcome(Finished(t1 - t0), Some(Score(t1 - t0)))
  {
    var evs := [StartTest, DelayElapsed(t0), Click(t1)];
    assert evs[1..] == [DelayElapsed(t0), Click(t1)];
    assert evs[1..][1..] == [Click(t1)];
    assert Run(Idle, evs) == Run(Waiting, evs[1..]);
    assert Run(Waiting, evs[1..]) == Run(Ready(t0), evs[1..][1..]);
  }

  /** 200 ms scores 100, 300 ms scores 75, 600 ms scores 0. */
  lemma ScoreExamples()
    ensures Score(200) == 100 && Score(600) == 0 && Score(300) == 75
  {
    ScoreIsShiftedFloor(300);
  }
}

=== FILE: results.dfy ===
/** The results screen: the rounded average of the six scores, the brain
    type it falls into, and which of the three result memes is shown. */
module Results {
  import opened Common
  import opened Session

  /** Sum of the six entries of the score record. */
  function Total(sc: Scores): (t: int)
    ensures sc.InRange() ==> 0 <= t <= 600
  {
    assert sc.InRange() ==>
      0 <= sc.Get(Reaction) <= 100 && 0 <= sc.Get(Pattern) <= 100 && 0 <= sc.Get(Memory) <= 100 &&
      0 <= sc.Get(Stroop) <= 100 && 0 <= sc.Get(Chimp) <= 100 && 0 <= sc.Get(Aim) <= 100;
    sc.reaction + sc.pattern + sc.memory + sc.stroop + sc.chimp + sc.aim
  }

  /** `Math.round(total / 6)`: the integer nearest to the mean, halves
      rounded up. */
  function Average(sc: Scores): (a: int)
    ensures 12 * a - 6 <= 2 * Total(sc) < 12 * a + 6
  {
    RoundDiv(Total(sc), 6)
  }

  /** The average is `(total + 3) / 6` under floor division, for every total. */
  lemma AverageIsShiftedFloor(sc: Scores)
    ensures Average(sc) == (Total(sc) + 3) / 6
  {
    var t := Total(sc);
    DivBounds(t + 3, 6);
    RoundDivUnique(t, 6, (t + 3) / 6);
  }

  /** When every game reported a score in [0, 100], so is the average. */
  lemma AverageInRange(sc: Scores)
    requires sc.InRange()
    ensures 0 <= Average(sc) <= 100
  {
  }

  /** One row of the brain-type table. */
  datatype BrainType = BrainType(threshold: int, name: string, desc: string)

  /** The table, in descending threshold order, ending with threshold 0. */
  const BrainTypes: seq<BrainType> := [
    BrainType(85, "Lightning CPU", "You calculate faster than my GPU!"),
    BrainType(70, "Fast Thinker", "Sharp, quick, and dangerous."),
    BrainType(55, "Balanced Brain", "Solid performance. Very human."),
    BrainType(35, "Golden Retriever", "Just happy to be here!"),
    BrainType(0, "Slow Mode", "Loading... still loading...")
  ]

  /** Thresholds strictly decrease along the table. */
  predicate Descending(table: seq<BrainType>) {
    forall i, j :: 0 <= i < j < |table| ==> table[j].threshold < table[i].threshold
  }

  /** `table.find(t => average >= t.threshold)`, as an index: the first row
      whose threshold the average reaches, or None. */
  function FindFirst(table: seq<BrainType>, average: int): (r: Option<nat>)
    ensures r.Some? ==> r.value < |table| && table[r.value].threshold <= average
    ensures r.Some? ==> forall j :: 0 <= j < r.value ==> table[j].threshold > average
    ensures r.None? ==> forall j :: 0 <= j < |table| ==> table[j].threshold > average
    decreases |table|
  {
    if |table| == 0 then None
    else if average >= table[0].threshold then Some(0)
    else
      match FindFirst(table[1..], average)
      case None => None
      case Some(i) => Some(i + 1)
  }

  /** In a descending table the first row the average reaches is the row
      with the largest threshold not above the average. */
  lemma FirstMatchIsLargest(table: seq<BrainType>, average: int, i: nat)
    requires Descending(table)
    requires FindFirst(table, average) == Some(i)
    ensures forall j :: 0 <= j < |table| && table[j].threshold <= average ==>
      table[j].threshold <= table[i].threshold
  {
    forall j | 0 <= j < |table| && table[j].threshold <= average
      ensures table[j].threshold <= table[i].threshold
    {
      if j > i {
        assert table[j].threshold < table[i].threshold;
      }
    }
  }

  /** `BRAIN_TYPES.find(...) || BRAIN_TYPES[BRAIN_TYPES.length - 1]`: for a
      non-negative average the row with the largest threshold the average
      reaches; for a negative one (no row matches) the last row. */
  function Classify(average: int): (r: BrainType)
    ensures r in BrainTypes
    ensures average >= 0 ==> r.threshold <= average
    ensures average >= 0 ==> forall t :: t in BrainTypes && t.threshold <= average ==> t.threshold <= r.threshold
    ensures average < 0 ==> r == BrainTypes[|BrainTypes| - 1]
  {
    match FindFirst(BrainTypes, average)
    case Some(i) =>
      FirstMatchIsLargest(BrainTypes, average, i);
      BrainTypes[i]
    case None =>
      assert BrainTypes[4].threshold == 0;
      BrainTypes[|BrainTypes| - 1]
  }

  /** For a non-negative average the lookup never needs the fallback. */
  lemma FindAlwaysMatches(average: int)
    requires average >= 0
    ensures FindFirst(BrainTypes, average).Some?
  {
    assert BrainTypes[4].threshold == 0;
  }

  /** The band boundaries: each threshold belongs to its own (higher) band
      and one point below it to the next band. */
  lemma ClassifyBoundaries()
    ensures Classify(100).name == "Lightning CPU"
    ensures Classify(85).name == "Lightning CPU"
    ensures Classify(84).name == "Fast Thinker"
    ensures Classify(70).name == "Fast Thinker"
    ensures Classify(69).name == "Balanced Brain"
    ensures Classify(55).name == "Balanced Brain"
    ensures Classify(54).name == "Golden Retriever"
    ensures Classify(35).name == "Golden Retriever"
    ensures Classify(34).name == "Slow Mode"
    ensures Classify(0).name == "Slow Mode"
  {
  }

  /** The three result memes. */
  datatype Meme = HighScore | MidScore | LowScore

  /** The meme choice: above 75 high, below 40 low, otherwise mid. */
  function MemeFor(average: int): (m: Meme)
    ensures m == HighScore <==> average > 75
    ensures m == LowScore <==> average < 40
    ensures m == MidScore <==> 40 <= average <= 75
  {
    if average > 75 then HighScore
    else if average < 40 then LowScore
    else MidScore
  }

  /** The meme bands do not line up with the brain-type bands: a top-band
      average always gets the high meme and a bottom-band one the low meme,
      but a "Fast Thinker" may get any of high or mid, and a "Golden
      Retriever" either mid or low. */
  lemma MemeAgainstBrainType(average: int)
    requires 0 <= average
    ensures Classify(average).threshold == 85 ==> MemeFor(average) == HighScore
    ensures Classify(average).threshold == 0 ==> MemeFor(average) == LowScore
    ensures Classify(average).threshold == 70 ==>
      (MemeFor(average) == HighScore <==> average > 75)
    ensures Classify(average).threshold == 35 ==>
      (MemeFor(average) == LowScore <==> average < 40)
    ensures Classify(average).threshold == 55 ==> MemeFor(average) == MidScore
  {
    var r := Classify(average);
    FindAlwaysMatches(average);
    var i := FindFirst(BrainTypes, average).value;
    assert r == BrainTypes[i];
  }

  /** What the results screen shows about a score record. */
  datatype Diagnosis = Diagnosis(average: int, brainType: BrainType, meme: Meme)

  function Diagnose(sc: Scores): (d: Diagnosis)
    ensures sc.InRange() ==> 0 <= d.average <= 100
    ensures d.brainType == Classify(d.average) && d.meme == MemeFor(d.average)
    ensures 12 * d.average - 6 <= 2 * Total(sc) < 12 * d.average + 6
  {
    var a := Average(sc);
    Diagnosis(a, Classify(a), MemeFor(a))
  }

  /** A worked example: 80, 70, 75, 80, 100, 70 sum to 475, whose sixth
      79.17 rounds to 79 — a "Fast Thinker" with the high meme. */
  lemma ExampleDiagnosis()
    ensures Diagnose(Scores(80, 70, 75, 80, 100, 70)) ==
      Diagnosis(79, BrainTypes[1], HighScore)
  {
    var sc := Scores(80, 70, 75, 80, 100, 70);
    AverageIsShiftedFloor(sc);
  }

  /** A full session whose games all report scores in [0, 100] ends on the
      results screen with an average in [0, 100] and the matching diagnosis. */
  lemma FullSessionDiagnosis(sc: Scores)
    requires sc.InRange()
    ensures var s := Run(Init, [StartPressed] + Completions(sc));
      s.step == Results && 0 <= Diagnose(s.scores).average <= 100 &&
      Diagnose(s.scores).brainType.threshold <= Diagnose(s.scores).average
  {
    FullPlay(sc);
  }
}

=== FILE: session.dfy ===
/** The session orchestrator of the quiz (the `App` component): the current
    step, the six-entry score record and the three operations the screens
    invoke — start, game complete and restart. */
module Session {

  /** The six mini-games, in the order they are played. */
  datatype Game = Reaction | Pattern | Memory | Stroop | Chimp | Aim

  /** The step the application shows: the intro, one game, or the results. */
  datatype Step = Intro | Playing(game: Game) | Results

  /** The fixed play order, as a sequence. */
  const PlayOrder: seq<Game> := [Reaction, Pattern, Memory, Stroop, Chimp, Aim]

  /** Position of a game in the play order. */
  function Index(g: Game): (i: nat)
    ensures i < |PlayOrder| && PlayOrder[i] == g
  {
    match g
    case Reaction => 0
    case Pattern => 1
    case Memory => 2
    case Stroop => 3
    case Chimp => 4
    case Aim => 5
  }

  /** The score record: one integer per game. Nothing clamps the entries;
      they hold whatever the games reported. */
  datatype Scores = Scores(reaction: int, pattern: int, memory: int, stroop: int, chimp: int, aim: int)
  {
    /** `scores[game]` */
    function Get(g: Game): int {
      match g
      case Reaction => reaction
      case Pattern => pattern
      case Memory => memory
      case Stroop => stroop
      case Chimp => chimp
      case Aim => aim
    }

    /** `{ ...scores, [game]: v }`: only the entry of `g` changes. */
    function Set(g: Game, v: int): (r: Scores)
      ensures r.Get(g) == v
      ensures forall h :: h != g ==> r.Get(h) == Get(h)
    {
      match g
      case Reaction => this.(reaction := v)
      case Pattern => this.(pattern := v)
      case Memory => this.(memory := v)
      case Stroop => this.(stroop := v)
      case Chimp => this.(chimp := v)
      case Aim => this.(aim := v)
    }

    /** Every entry is a score a game can report. */
    predicate InRange() {
      forall g :: 0 <= Get(g) <= 100
    }
  }

  /** The score record a session starts with (and restart restores). */
  const ZeroScores := Scores(0, 0, 0, 0, 0, 0)

  datatype State = State(step: Step, scores: Scores)

  /** The state on first load. */
  const Init := State(Intro, ZeroScores)

  /** The step shown after `g` reports: the next game in the play order, or
      the results after the last one. */
  function Successor(g: Game): (s: Step)
    ensures Index(g) + 1 < |PlayOrder| ==> s == Playing(PlayOrder[Index(g) + 1])
    ensures Index(g) + 1 == |PlayOrder| ==> s == Results
  {
    match g
    case Reaction => Playing(Pattern)
    case Pattern => Playing(Memory)
    case Memory => Playing(Stroop)
    case Stroop => Playing(Chimp)
    case Chimp => Playing(Aim)
    case Aim => Results
  }

  /** The intro screen's start button: shows the first game of the play
      order and leaves the scores alone. */
  function Start(s: State): (r: State)
    ensures r.step == Playing(PlayOrder[0])
    ensures r.scores == s.scores
  {
    s.(step := Playing(Reaction))
  }

  /** `handleGameComplete(game, score)`: stores the score under `game` and
      moves to the step after `game`. The new step depends on the reported
      game only, not on the current step, and the score is stored as given. */
  function Complete(s: State, g: Game, v: int): (r: State)
    ensures r.scores.Get(g) == v
    ensures forall h :: h != g ==> r.scores.Get(h) == s.scores.Get(h)
    ensures r.step == Successor(g)
  {
    State(Successor(g), s.scores.Set(g, v))
  }

  /** `restart`: every score becomes 0 and the intro is shown again. */
  function Restart(s: State): (r: State)
    ensures r.step == Intro
    ensures forall g :: r.scores.Get(g) == 0
  {
    Init
  }

  /** The inputs the screens deliver to the orchestrator. */
  datatype Event = StartPressed | Completed(game: Game, score: int) | RestartPressed

  /** The events the screen on show delivers directly: the start button
      exists only on the intro, a restart control on every step except the
      intro (the header's close button on the game steps, the retry button
      on the results), and the game on its step can report. Games that
      report through a timer can also deliver a completion after they are
      gone; `World` below models those timers. */
  predicate OnScreen(s: State, e: Event) {
    match e
    case StartPressed => s.step == Intro
    case Completed(g, _) => s.step == Playing(g)
    case RestartPressed => s.step != Intro
  }

  function Apply(s: State, e: Event): State {
    match e
    case StartPressed => Start(s)
    case Completed(g, v) => Complete(s, g, v)
    case RestartPressed => Restart(s)
  }

  /** The state after a sequence of events. */
  function Run(s: State, events: seq<Event>): State
    decreases |events|
  {
    if |events| == 0 then s else Run(Apply(s, events[0]), events[1..])
  }

  /** Every event of the sequence comes from the screen on show when it is
      delivered. */
  predicate OnScreenRun(s: State, events: seq<Event>)
    decreases |events|
  {
    |events| == 0 || (OnScreen(s, events[0]) && OnScreenRun(Apply(s, events[0]), events[1..]))
  }

  /** Every game reports a score in [0, 100]. */
  predicate ReportsInRange(events: seq<Event>) {
    forall i :: 0 <= i < |events| && events[i].Completed? ==> 0 <= events[i].score <= 100
  }

  /** The six completions of a full play, in play order, with the given scores. */
  function Completions(sc: Scores): (events: seq<Event>)
    ensures |events| == |PlayOrder|
    ensures forall i :: 0 <= i < |events| ==>
      events[i] == Completed(PlayOrder[i], sc.Get(PlayOrder[i]))
  {
    [ Completed(Reaction, sc.reaction), Completed(Pattern, sc.pattern),
      Completed(Memory, sc.memory), Completed(Stroop, sc.stroop),
      Completed(Chimp, sc.chimp), Completed(Aim, sc.aim) ]
  }

  /** Start followed by the six completions in play order leads from the
      intro to the results with every reported score stored, and the screens
      offer each of those events when it is delivered. */
  lemma FullPlay(sc: Scores)
    ensures OnScreenRun(Init, [StartPressed] + Completions(sc))
    ensures Run(Init, [StartPressed] + Completions(sc)) == State(Results, sc)
  {
    var evs := [StartPressed] + Completions(sc);
    var s := Init;
    var rest := evs;
    var k := 0;
    while k < |evs|
      invariant 0 <= k <= |evs|
      invariant rest == evs[k..]
      invariant Run(Init, evs) == Run(s, rest)
      invariant OnScreenRun(Init, evs) <== OnScreenRun(s, rest)
      invariant k == 0 ==> s == Init
      invariant 0 < k < |evs| ==> s.step == Playing(PlayOrder[k - 1])
      invariant k == |evs| ==> s.step == Results
      invariant forall i :: 0 <= i < |PlayOrder| && i + 1 < k ==> s.scores.Get(PlayOrder[i]) == sc.Get(PlayOrder[i])
    {
      assert rest[0] == evs[k];
      if k > 0 {
        assert evs[k] == Completed(PlayOrder[k - 1], sc.Get(PlayOrder[k - 1]));
      }
      s := Apply(s, rest[0]);
      rest := rest[1..];
      k := k + 1;
    }
    assert s.scores == sc by {
      assert s.scores.Get(PlayOrder[0]) == sc.Get(PlayOrder[0]);
      assert s.scores.Get(PlayOrder[1]) == sc.Get(PlayOrder[1]);
      assert s.scores.Get(PlayOrder[2]) == sc.Get(PlayOrder[2]);
      assert s.scores.Get(PlayOrder[3]) == sc.Get(PlayOrder[3]);
      assert s.scores.Get(PlayOrder[4]) == sc.Get(PlayOrder[4]);
      assert s.scores.Get(PlayOrder[5]) == sc.Get(PlayOrder[5]);
    }
  }

  /** Restart forgets everything: from any state it yields the initial state. */
  lemma RestartFromAnywhere(s: State, t: State)
    ensures Restart(s) == Restart(t) == Init
  {
  }

  /** Scores stay in range along any run whose games report in-range
      scores, whatever order the events come in. */
  lemma {:induction false} RunKeepsScoresInRange(s: State, events: seq<Event>)
    requires s.scores.InRange()
    requires ReportsInRange(events)
    ensures Run(s, events).scores.InRange()
    decreases |events|
  {
    if |events| > 0 {
      var s' := Apply(s, events[0]);
      assert s'.scores.InRange() by {
        match events[0]
        case StartPressed =>
        case RestartPressed =>
          assert forall g :: s'.scores.Get(g) == 0;
        case Completed(g, v) =>
          assert 0 <= v <= 100 by { assert events[0].Completed?; }
          forall h ensures 0 <= s'.scores.Get(h) <= 100 {
            if h != g {
              assert s'.scores.Get(h) == s.scores.Get(h);
            }
          }
      }
      assert ReportsInRange(events[1..]) by {
        forall i | 0 <= i < |events[1..]| && events[1..][i].Completed?
          ensures 0 <= events[1..][i].score <= 100
        {
          assert events[1..][i] == events[i + 1];
        }
      }
      RunKeepsScoresInRange(s', events[1..]);
    }
  }

  /** Whatever the event and the state it meets, a game step is reached only
      by start (for the first game) or by completing the game before it, and
      the results only by completing aim. */
  lemma {:induction false} StepFollowsOrder(s: State, e: Event)
    ensures Apply(s, e).step.Playing? ==>
      (Apply(s, e).step.game == PlayOrder[0] && e == StartPressed) ||
      (e.Completed? && Index(Apply(s, e).step.game) == Index(e.game) + 1)
    ensures Apply(s, e).step == Results ==> e.Completed? && e.game == Aim
  {
    match e
    case StartPressed =>
    case RestartPressed =>
    case Completed(g, v) =>
      var r := Complete(s, g, v);
      if r.step.Playing? {
        assert Index(g) + 1 < |PlayOrder|;
      }
  }

  /** A score a game has handed to a timer: the reaction and pattern games
      call back 2 s after their score is known, Monkey Mind 1.5 s after a
      wrong click. */
  datatype Report = Report(game: Game, score: int)

  /** The games that report through a timer. */
  predicate Delayed(g: Game) {
    g == Reaction || g == Pattern || g == Chimp
  }

  /** The orchestrator together with the report timers still pending. */
  datatype World = World(app: State, timers: seq<Report>)

  const InitWorld := World(Init, [])

  datatype Signal =
    | Direct(e: Event)     // a button press, or a game reporting at once
    | Schedule(r: Report)  // the game shown sets its report timer
    | Fire(i: nat)         // the i-th pending report timer calls back

  /** What can happen next: a direct event from the screen on show, a report
      timer set by the game shown when it reports through one, and any
      pending timer calling back, whatever step is shown by then. */
  predicate Possible(w: World, sig: Signal) {
    match sig
    case Direct(e) => OnScreen(w.app, e)
    case Schedule(r) => Delayed(r.game) && w.app.step == Playing(r.game)
    case Fire(i) => i < |w.timers|
  }

  /** What becomes of a report timer when its step is left: as written,
      nothing clears it (neither the game unmounting nor restart); with
      cancellation, leaving a step clears the timers set on it, as a cleanup
      on unmount would. */
  datatype Rule = AsWritten | Cancelling

  /** One signal under a timer rule. A firing timer leaves the pending list
      and hands its report to `handleGameComplete`. */
  function WorldStep(rule: Rule, w: World, sig: Signal): (r: World)
    ensures rule == Cancelling && r.app.step != w.app.step ==> r.timers == []
  {
    var next := match sig
      case Direct(e) => w.(app := Apply(w.app, e))
      case Schedule(r) => w.(timers := w.timers + [r])
      case Fire(i) =>
        if i < |w.timers| then
          World(Complete(w.app, w.timers[i].game, w.timers[i].score), w.timers[..i] + w.timers[i + 1..])
        else w;
    if rule == Cancelling && next.app.step != w.app.step then next.(timers := []) else next
  }

  function WorldRun(rule: Rule, w: World, sigs: seq<Signal>): World
    decreases |sigs|
  {
    if |sigs| == 0 then w else WorldRun(rule, WorldStep(rule, w, sigs[0]), sigs[1..])
  }

  /** Every signal of the sequence can happen when it comes. */
  predicate PossibleRun(rule: Rule, w: World, sigs: seq<Signal>)
    decreases |sigs|
  {
    |sigs| == 0 || (Possible(w, sigs[0]) && PossibleRun(rule, WorldStep(rule, w, sigs[0]), sigs[1..]))
  }

  /** As written, a report timer calls back whatever step is shown, the
      intro included: its score is stored under its own game and the step
      moves to that game's successor. */
  lemma FiredReportAdvances(w: World, i: nat)
    requires i < |w.timers|
    ensures Possible(w, Fire(i))
    ensures var r := w.timers[i]; var w' := WorldStep(AsWritten, w, Fire(i));
      w'.app.step == Successor(r.game) && w'.app.scores.Get(r.game) == r.score &&
      (forall h :: h != r.game ==> w'.app.scores.Get(h) == w.app.scores.Get(h)) &&
      |w'.timers| == |w.timers| - 1
  {
  }

  /** One move of the intended flow: stay, go back to the intro, start the
      first game from the intro, or advance from the game shown to its
      successor. */
  predicate Follows(from: Step, to: Step) {
    || to == from
    || to == Intro
    || (from == Intro && to == Playing(PlayOrder[0]))
    || (from.Playing? && to == Successor(from.game))
  }

  /** The scores change only under the game shown, or all return to 0 with
      the intro. */
  predicate Attributed(before: State, after: State) {
    after == Init || forall h :: after.scores.Get(h) != before.scores.Get(h) ==> before.step == Playing(h)
  }

  /** The flow along a run: each signal moves the step by `Follows` and
      changes scores only as `Attributed` allows. */
  predicate FollowsAlong(rule: Rule, w: World, sigs: seq<Signal>)
    decreases |sigs|
  {
    |sigs| == 0 ||
      (var w' := WorldStep(rule, w, sigs[0]);
       Follows(w.app.step, w'.app.step) && Attributed(w.app, w'.app) && FollowsAlong(rule, w', sigs[1..]))
  }

  /** Every pending report timer was set by the game shown. */
  predicate TimersOfShown(w: World) {
    forall k :: 0 <= k < |w.timers| ==> w.app.step == Playing(w.timers[k].game)
  }

  /** With cancellation, every possible signal keeps the pending timers to
      the game shown, moves the step by `Follows` and changes only the shown
      game's score, unless restart clears them all. */
  lemma CancellingFollowsOrder(w: World, sig: Signal)
    requires Possible(w, sig) && TimersOfShown(w)
    ensures TimersOfShown(WorldStep(Cancelling, w, sig))
    ensures Follows(w.app.step, WorldStep(Cancelling, w, sig).app.step)
    ensures Attributed(w.app, WorldStep(Cancelling, w, sig).app)
  {
    var w' := WorldStep(Cancelling, w, sig);
    match sig
    case Direct(e) =>
      match e {
        case StartPressed =>
        case RestartPressed =>
        case Completed(g, v) =>
          assert w'.app.scores == w.app.scores.Set(g, v);
      }
    case Schedule(r) =>
      if w'.app.step == w.app.step {
        assert w'.timers == w.timers + [r];
        forall k | 0 <= k < |w'.timers| ensures w'.app.step == Playing(w'.timers[k].game) {
          if k < |w.timers| {
            assert w'.timers[k] == w.timers[k];
          }
        }
      }
    case Fire(i) =>
      var r := w.timers[i];
      assert w.app.step == Playing(r.game);
      assert w'.app.scores == w.app.scores.Set(r.game, r.score);
  }

  /** With cancellation, every run of possible signals from a world whose
      timers belong to the game shown (the initial world, say) keeps to the
      intended flow at each step. */
  lemma {:induction false} CancellingRunFollowsOrder(w: World, sigs: seq<Signal>)
    requires PossibleRun(Cancelling, w, sigs) && TimersOfShown(w)
    ensures FollowsAlong(Cancelling, w, sigs)
    ensures TimersOfShown(WorldRun(Cancelling, w, sigs))
    decreases |sigs|
  {
    if |sigs| > 0 {
      CancellingFollowsOrder(w, sigs[0]);
      CancellingRunFollowsOrder(WorldStep(Cancelling, w, sigs[0]), sigs[1..]);
    }
  }

  /** With cancellation, a restart leaves the initial world behind: nothing
      set before it is still pending, so whatever follows runs exactly as
      from a fresh load, and no report from before the restart reaches the
      orchestrator. */
  lemma {:induction false} CancellingRestartForgets(w: World, sigs: seq<Signal>)
    requires Possible(w, Direct(RestartPressed))
    ensures WorldStep(Cancelling, w, Direct(RestartPressed)) == InitWorld
    ensures WorldRun(Cancelling, w, [Direct(RestartPressed)] + sigs) == WorldRun(Cancelling, InitWorld, sigs)
    ensures PossibleRun(Cancelling, w, [Direct(RestartPressed)] + sigs) <==> PossibleRun(Cancelling, InitWorld, sigs)
  {
    var all := [Direct(RestartPressed)] + sigs;
    assert all[0] == Direct(RestartPressed);
    assert all[1..] == sigs;
    assert WorldStep(Cancelling, w, Direct(RestartPressed)) == InitWorld;
  }

  /** The signals of the run in which the pattern report outlives a restart,
      for reaction score `r` and pattern score `p`. */
  function StaleRun(r: int, p: int): seq<Signal> {
    [Direct(StartPressed), Schedule(Report(Reaction, r)), Fire(0),
     Schedule(Report(Pattern, p)), Direct(RestartPressed), Fire(0)]
  }

  /** The first five signals of that run lead to the intro; as written the
      pattern report is still pending there, with cancellation nothing is. */
  lemma {:induction false} StalePrefix(rule: Rule, r: int, p: int)
    ensures var sigs := StaleRun(r, p);
      var w5 := World(Init, if rule == AsWritten then [Report(Pattern, p)] else []);
      && WorldRun(rule, InitWorld, sigs) == WorldStep(rule, w5, Fire(0))
      && (PossibleRun(rule, InitWorld, sigs) <== Possible(w5, Fire(0)))
      && (FollowsAlong(rule, InitWorld, sigs) ==>
            Follows(Intro, WorldStep(rule, w5, Fire(0)).app.step))
  {
    var sigs := StaleRun(r, p);
    var w1 := World(State(Playing(Reaction), ZeroScores), []);
    var w2 := w1.(timers := [Report(Reaction, r)]);
    var w3 := World(State(Playing(Pattern), ZeroScores.(reaction := r)), []);
    var w4 := w3.(timers := [Report(Pattern, p)]);
    var w5 := World(Init, if rule == AsWritten then [Report(Pattern, p)] else []);
    assert WorldStep(rule, InitWorld, sigs[0]) == w1;
    assert WorldStep(rule, w1, sigs[1]) == w2;
    assert WorldStep(rule, w2, sigs[2]) == w3;
    assert WorldStep(rule, w3, sigs[3]) == w4;
    assert WorldStep(rule, w4, sigs[4]) == w5;
    var t1 := sigs[1..];
    var t2 := t1[1..];
    var t3 := t2[1..];
    var t4 := t3[1..];
    var t5 := t4[1..];
    assert t5 == [Fire(0)];
    assert t5[1..] == [];
    assert WorldRun(rule, w5, t5) == WorldStep(rule, w5, Fire(0));
    assert WorldRun(rule, InitWorld, sigs) == WorldRun(rule, w1, t1) == WorldRun(rule, w2, t2)
      == WorldRun(rule, w3, t3) == WorldRun(rule, w4, t4) == WorldRun(rule, w5, t5);
    if Possible(w5, Fire(0)) {
      assert PossibleRun(rule, w5, t5);
      assert PossibleRun(rule, w4, t4);
      assert PossibleRun(rule, w3, t3);
      assert PossibleRun(rule, w2, t2);
      assert PossibleRun(rule, w1, t1);
    }
    if FollowsAlong(rule, InitWorld, sigs) {
      assert FollowsAlong(rule, w1, t1);
      assert FollowsAlong(rule, w2, t2);
      assert FollowsAlong(rule, w3, t3);
      assert FollowsAlong(rule, w4, t4);
      assert FollowsAlong(rule, w5, t5);
    }
  }

  /** As written, a report timer from before a restart still counts: the
      reaction test reports, the pattern game sets its report timer, the
      player restarts, and the pattern report then moves the intro straight
      to the memory game with the old pattern score stored. With
      cancellation the restart clears that timer and the run stays on the
      intro. */
  lemma StaleReportSkipsAhead(r: int, p: int)
    ensures PossibleRun(AsWritten, InitWorld, StaleRun(r, p))
    ensures WorldRun(AsWritten, InitWorld, StaleRun(r, p)).app == State(Playing(Memory), ZeroScores.(pattern := p))
    ensures !FollowsAlong(AsWritten, InitWorld, StaleRun(r, p))
    ensures WorldRun(Cancelling, InitWorld, StaleRun(r, p)) == InitWorld
  {
    StalePrefix(AsWritten, r, p);
    StalePrefix(Cancelling, r, p);
  }

  /** As written, a stale report also ends a fresh attempt at its own game:
      the reaction test sets its report timer, the player restarts and
      starts again, and the old reaction score then ends the new reaction
      test. With cancellation no timer is pending after the second start. */
  lemma StaleReportEndsRetry(r: int)
    ensures var sigs := [Direct(StartPressed), Schedule(Report(Reaction, r)),
                         Direct(RestartPressed), Direct(StartPressed)];
      && PossibleRun(AsWritten, InitWorld, sigs + [Fire(0)])
      && WorldRun(AsWritten, InitWorld, sigs + [Fire(0)]).app == State(Playing(Pattern), ZeroScores.(reaction := r))
      && WorldRun(Cancelling, InitWorld, sigs) == World(State(Playing(Reaction), ZeroScores), [])
  {
    var sigs := [Direct(StartPressed), Schedule(Report(Reaction, r)),
                 Direct(RestartPressed), Direct(StartPressed)];
    var all := sigs + [Fire(0)];
    var w1 := World(State(Playing(Reaction), ZeroScores), []);
    var w2 := w1.(timers := [Report(Reaction, r)]);
    var w3 := World(Init, [Report(Reaction, r)]);
    var w4 := w3.(app := w1.app);
    var w5 := World(State(Playing(Pattern), ZeroScores.(reaction := r)), []);
    var a1 := all[1..];
    var a2 := a1[1..];
    var a3 := a2[1..];
    var a4 := a3[1..];
    assert a4 == [Fire(0)] && a4[1..] == [];
    assert WorldStep(AsWritten, InitWorld, all[0]) == w1;
    assert WorldStep(AsWritten, w1, a1[0]) == w2;
    assert WorldStep(AsWritten, w2, a2[0]) == w3;
    assert WorldStep(AsWritten, w3, a3[0]) == w4;
    assert WorldStep(AsWritten, w4, a4[0]) == w5;
    assert PossibleRun(AsWritten, w4, a4);
    assert PossibleRun(AsWritten, w3, a3);
    assert PossibleRun(AsWritten, w2, a2);
    assert PossibleRun(AsWritten, w1, a1);
    assert WorldRun(AsWritten, InitWorld, all) == WorldRun(AsWritten, w1, a1) == WorldRun(AsWritten, w2, a2)
      == WorldRun(AsWritten, w3, a3) == WorldRun(AsWritten, w4, a4) == w5;
    var s1 := sigs[1..];
    var s2 := s1[1..];
    var s3 := s2[1..];
    assert s3 == [Direct(StartPressed)] && s3[1..] == [];
    assert WorldStep(Cancelling, InitWorld, sigs[0]) == w1;
    assert WorldStep(Cancelling, w1, s1[0]) == w2;
    assert WorldStep(Cancelling, w2, s2[0]) == InitWorld;
    assert WorldStep(Cancelling, InitWorld, s3[0]) == w1;
    assert WorldRun(Cancelling, InitWorld, sigs) == WorldRun(Cancelling, w1, s1) == WorldRun(Cancelling, w2, s2)
      == WorldRun(Cancelling, InitWorld, s3) == w1;
  }
}

=== FILE: stroop.dfy ===
/** Color chaos (a Stroop test): a color word is shown in some ink and the
    player picks the ink's color. Five answers are scored; the score is the
    percentage answered right. Each puzzle is drawn at random; the draws are
    inputs. */
module Stroop {
  import opened Common

  datatype Color = Red | Blue | Green | Yellow

  /** The word shown and the ink it is printed in; the right answer is the ink. */
  datatype Puzzle = Puzzle(text: Color, ink: Color)

  /** Answers scored per game. */
  const Rounds := 5

  /** `round` counts puzzles shown so far, `score` right answers before the
      current puzzle. */
  datatype Game = Game(round: int, score: int, current: Puzzle)

  /** The component's state before its mount effect runs. */
  const Unmounted := Game(0, 0, Puzzle(Red, Red))

  /** The invariant after mount: between one and five puzzles shown, and no
      more right answers than puzzles already answered. */
  predicate Valid(g: Game) {
    1 <= g.round <= Rounds && 0 <= g.score < g.round
  }

  /** `Math.round((k / 5) * 100)`: the percentage of five answers that were
      right, for k right answers. */
  function FinalScore(k: int): (r: int)
    ensures 0 <= k <= Rounds ==> 0 <= r <= 100
    ensures 10 * r - 5 <= 200 * k < 10 * r + 5
  {
    RoundDiv(100 * k, Rounds)
  }

  /** For whole answers the rounding is exact: 20 points per right answer. */
  lemma FinalScoreExact(k: int)
    ensures FinalScore(k) == 20 * k
  {
    RoundDivUnique(100 * k, Rounds, 20 * k);
  }

  /** `nextRound(currentScore)`: after the fifth puzzle reports the final
      score; otherwise shows the drawn puzzle and counts a round. */
  function NextRound(g: Game, currentScore: int, draw: Puzzle): (o: (Game, Option<int>))
    ensures o.1.Some? <==> g.round >= Rounds
    ensures o.1.Some? ==> o.1.value == FinalScore(currentScore) && o.0 == g
    ensures o.1.None? ==> o.0 == Game(g.round + 1, currentScore, draw)
  {
    if g.round >= Rounds then (g, Some(FinalScore(currentScore)))
    else (Game(g.round + 1, currentScore, draw), None)
  }

  /** The mount effect: `nextRound(0)` shows the first puzzle. */
  function Mount(draw: Puzzle): (g: Game)
    ensures Valid(g) && g.round == 1 && g.score == 0 && g.current == draw
  {
    NextRound(Unmounted, 0, draw).0
  }

  /** `handleAnswer(choice)`: counts the answer if it names the ink and moves
      on; the fifth answer reports the score. */
  function Answer(g: Game, choice: Color, draw: Puzzle): (o: (Game, Option<int>))
    ensures o.1.Some? <==> g.round >= Rounds
    ensures Valid(g) && o.1.Some? ==> 0 <= o.1.value <= 100
    ensures Valid(g) && o.1.None? ==> Valid(o.0)
    ensures o.1.None? ==> o.0.round == g.round + 1 && o.0.current == draw
    ensures o.1.None? ==> o.0.score == g.score + (if choice == g.current.ink then 1 else 0)
  {
    NextRound(g, if choice == g.current.ink then g.score + 1 else g.score, draw)
  }

  /** Right answers among paired puzzles and choices. */
  function Correct(puzzles: seq<Puzzle>, choices: seq<Color>): (k: nat)
    requires |puzzles| == |choices|
    ensures k <= |choices|
    decreases |choices|
  {
    if |choices| == 0 then 0
    else (if choices[0] == puzzles[0].ink then 1 else 0) + Correct(puzzles[1..], choices[1..])
  }

  /** Answers the current puzzle with each choice in turn, drawing the next
      puzzle from `draws`, until a score is reported. */
  function Play(g: Game, choices: seq<Color>, draws: seq<Puzzle>): (o: (Game, Option<int>))
    requires |draws| == |choices|
    decreases |choices|
  {
    if |choices| == 0 then (g, None)
    else
      var o := Answer(g, choices[0], draws[0]);
      if o.1.Some? then o else Play(o.0, choices[1..], draws[1..])
  }

  /** From any valid game, answering the remaining puzzles (the current one
      followed by the drawn ones) reports exactly at the fifth answer, and
      reports 20 points per right answer over the whole game. */
  lemma {:induction false} PlayScoresRightAnswers(g: Game, choices: seq<Color>, draws: seq<Puzzle>)
    requires Valid(g)
    requires |choices| == |draws| == Rounds - g.round + 1
    ensures Play(g, choices, draws).1 ==
      Some(20 * (g.score + Correct([g.current] + draws[..|draws| - 1], choices)))
    decreases |choices|
  {
    var shown := [g.current] + draws[..|draws| - 1];
    var o := Answer(g, choices[0], draws[0]);
    if g.round == Rounds {
      assert |choices| == 1;
      assert Correct(shown, choices) == (if choices[0] == g.current.ink then 1 else 0);
      FinalScoreExact(g.score + Correct(shown, choices));
    } else {
      PlayScoresRightAnswers(o.0, choices[1..], draws[1..]);
      assert shown[1..] == [draws[0]] + draws[1..][..|draws[1..]| - 1];
    }
  }

  /** A whole game: the mount puzzle plus four drawn ones are answered with
      five choices, and the report is 20 points per right answer. */
  lemma WholeGame(first: Puzzle, choices: seq<Color>, draws: seq<Puzzle>)
    requires |choices| == |draws| == Rounds
    ensures Play(Mount(first), choices, draws).1 ==
      Some(20 * Correct([first] + draws[..Rounds - 1], choices))
  {
    PlayScoresRightAnswers(Mount(first), choices, draws);
  }
}
